=== FILE: README.md ===
# Restaurant assistant core, modelled in Dafny

The repository is a chat assistant for a restaurant. It answers menu
questions and books tables. Almost all of it is glue around third-party
components: an LLM client, a vector store, a ReAct agent and a chat widget.
Two parts of `app.py` hold logic of their own, and this project models them:

1. **The reservation tool `reservar_mesa(hora)`.** It takes an "HH:MM" time
   and checks it against seven open slots and a fixed list of occupied
   (slot, table) pairs for tables 1 to 6. A closed hour is rejected with
   the list of open slots. A fully booked slot is rejected with the table
   count. Otherwise the lowest free table is assigned, and the reply says
   how many tables are still free. The occupied list is rebuilt on every
   call, so the tool is a pure function of `hora`.
2. **The turn logic of `respond(message, history)`.**
   - The history of (user, assistant) pairs becomes the agent's message
     list: the system message, then for each exchange in order its user
     message followed by its reply when that reply is truthy, then the new
     user message.
   - The agent's stream is folded into the values shown to the user. A
     "tools" chunk appends a loading placeholder and sets `tool_used`.
     Each agent message first clears the buffer if a tool ran, then
     appends its content. Every yield is the whole response so far. An
     exception yields one error text.

Modules:

- `Optional`: the Option type.
- `Text`: Python's `str(n)`, `", ".join`, repetition, and the facts that
  make numerals in a reply unambiguous.
- `Reservation`: the resolver, the reply texts, and lemmas about both.
- `ReservationScenarios`: the tool's answer for every open slot of the
  restaurant's own data.
- `History`: the history-to-messages translation and its inverse.
- `Streaming`: the accumulator as a fold over chunks, plus a description of
  the displayed text written without the loop.
- `StreamingScenarios`: scripted streams.
- `Chat`: one whole turn, with the agent passed in as a function.

The resolver `Resolve` is written for any open-slot list, occupancy list and
table count. `Decide` and `ReservarMesa` apply it to the constants at
app.py:62-64 and app.py:72.

Notes on the source:

- Repeated "tools" chunks append the placeholder each time (app.py:155-160).
- The retrieval call at app.py:115 is outside the `try` at app.py:152, so a
  retrieval failure propagates instead of becoming the error reply.
- The rejection lists the open slots in the order of app.py:62.
- The occupancy list `mesas_ocupadas` is a local variable, rebuilt from a
  literal on every call (app.py:62-64). The tool therefore answers equal
  requests with equal replies by construction, whatever came before. For
  the same reason, uncommenting the append at app.py:87 alone would change
  no reply: it would extend a list that is discarded on return.

## Model

| member | source | states |
|---|---|---|
| Text.NatToString | app.py:89-90 | The numeral in a reply is non-empty, all digits, has no leading zero, and reads back as the number it was made from |
| Text.NatToStringInjective | app.py:89-90 | Two numbers give the same numeral only if they are equal |
| Reservation.FreeTablesMembers | app.py:74-76 | The list of available tables holds exactly the tables 1..n that are not in the occupied list at that hour |
| Reservation.FreeTablesIncreasing | app.py:74-76 | The list of available tables is in strictly increasing order, so its first entry is the lowest free table |
| Reservation.FreeTablesCount | app.py:74-76 | The list of available tables has no repeats: its length is the number of free tables |
| Reservation.Resolve | app.py:66-84 | A closed hour gives the rejection carrying the full slot list (both directions). An open hour with no free table gives the no-capacity result naming the hour and the table count (both directions). Otherwise the result assigns a free table that is no higher than any other free table, with remaining = number of free tables - 1 |
| Reservation.Decide | app.py:62-64 | With the restaurant's own data, every assigned table is in 1..6, and every slot named in a result is five characters long |
| Reservation.ReservarMesa | app.py:54-92 | The reply opens with the closed-hours apology exactly when the hour is not open, with the fully-booked apology exactly when every table is taken, and with the assignment otherwise. It ends with the last-table sentence exactly when the assigned table was the only free one. When k > 1 tables are free, it ends with ". Quedan k-1 mesas disponibles en ese horario." |
| Reservation.RenderKinds | app.py:67-92 | The three reply kinds open with different words. A reply ends with "Era la última mesa…" exactly when it assigns with 0 remaining; with N > 0 remaining it ends with ". Quedan N mesas disponibles en ese horario." |
| Reservation.RenderInjective | app.py:79-92 | Two well-formed outcomes with the same reply text are the same outcome, so the reply names table, hour and count unambiguously |
| Reservation.ReplyDeterminesDecision | app.py:89-92 | Two requests get the same reply exactly when they got the same decision |
| Reservation.PersistedBookingConsumesTable | app.py:86-87 | If the booking were kept across calls (the database the comment at app.py:86 envisages), the next request for the same slot would get a strictly higher table with one fewer remaining, or the no-capacity result when the assigned table was the last one |
| ReservationScenarios.OpenSlotDecisions | app.py:62-64 | With the fixed data: 13:00 is fully booked (6 tables); 14:00 gets table 1 with 3 left; 15:00 table 1 with 4 left; 20:00 table 4 with 2 left; 21:00 table 1 with 3 left; 22:00 table 2 with 3 left; 23:00 table 1 with 5 left |
| ReservationScenarios.NoSlotIsDownToLastTable | app.py:89-92 | With the fixed data, no request ever gets the last-table sentence |
| ReservationScenarios.Reply2100 | app.py:89-90 | The reply for "21:00" assigns table 1 and says 3 tables remain |
| ReservationScenarios.Reply1300 | app.py:79-80 | The reply for "13:00" says all 6 tables are taken at 13:00 |
| ReservationScenarios.Reply1700 | app.py:67-68 | "17:00" is rejected with the closed-hours reply listing the open slots |
| ReservationScenarios.OpenHoursListing | app.py:62-68 | The closed-hours reply lists the seven slots in order, separated by ", " |
| History.HistoryMessages | app.py:137-140 | The history contributes one user message per exchange and, in total, one assistant message per truthy reply. Every assistant message directly follows a user message. It contributes no system message and starts with the first user message |
| History.TurnMessages | app.py:134-143 | The message list has length 2 + number of exchanges + number of truthy replies. It starts with the one system message and ends with the new user message |
| History.Normalize | app.py:139 | The normalized history keeps every user message. It keeps a reply exactly when the reply is truthy and turns None or "" into None |
| History.ReadHistoryMessages | app.py:137-143 | Reading back the history messages plus the new user message gives the normalized exchanges followed by the new message |
| History.TurnMessagesRoundTrip | app.py:134-143 | Reading the message list back gives the system text, the history with falsy replies dropped, and the new message: nothing else is lost |
| Chat.HistoryMessagesNormalized | app.py:137-140 | Translating the normalized history gives the same messages as translating the original |
| Chat.MessagesIdentifyNormalizedHistory | app.py:134-143 | Two histories give the agent the same message list exactly when they agree once None and empty replies are dropped |
| Chat.FalsyRepliesAreAlike | app.py:139-140 | Two histories that differ only in None vs "" replies give the agent the same messages, so an agent that depends only on its input message list yields the same values |
| Streaming.AgentMessagesAreEvents | app.py:163-171 | The inner loop over one chunk's agent messages equals applying one text event per message |
| Streaming.ChunkStepIsEvents | app.py:155-171 | One pass of the loop body equals applying the chunk's tool event first and then its text events |
| Streaming.StreamIsEvents | app.py:153-171 | Consuming the stream chunk by chunk yields the same values and final state as consuming its events one at a time |
| Streaming.ShownAfterTool | app.py:155-160 | A tool call always appends exactly one more placeholder to the displayed text, even right after another tool call |
| Streaming.ShownAfterText | app.py:163-171 | An agent message right after a tool call replaces the whole displayed text. Otherwise it is appended |
| Streaming.RunShows | app.py:149-171 | After any events, the buffer is the agent text since the last tool call followed by one placeholder per unanswered tool call. `tool_used` is set exactly when the last event was a tool call |
| Streaming.YieldsArePrefixStates | app.py:160-171 | The k-th yield is the whole buffer after the k-th event: cumulative, not a delta |
| Streaming.Respond | app.py:149-176 | One value per event, each the displayed text for the events so far. When the stream raised, exactly one more value follows, equal to the error template plus the error text and nothing of the buffer |
| Streaming.ConsecutiveYields | app.py:155-171 | A tool call yields the previous value plus the placeholder. A message after a tool call yields exactly that message. A message after a message yields the previous value plus that message |
| Streaming.FirstYield | app.py:149-171 | The first value is the placeholder if the stream opens with a tool call, and the first message otherwise |
| Streaming.FailureAddsOnlyErrorText | app.py:173-176 | An exception leaves the earlier values unchanged and adds only the error text; nothing is re-raised |
| StreamingScenarios.ToolThenAnswer | app.py:155-171 | A tool chunk then the agent answer "Mesa 1 asignada." yields the placeholder, then exactly "Mesa 1 asignada." |
| StreamingScenarios.RepeatedToolCalls | app.py:155-160 | Two tool chunks in a row yield one placeholder, then two |
| StreamingScenarios.AnswerThenFailure | app.py:163-176 | A message followed by an exception yields the message, then the error text alone |

## Left out

- The chat widget and its launch (app.py:178-194): user interface only.
- The LLM client, API keys and headers (app.py:41-51), and the ReAct agent
  with its memory and fixed `thread_id` (app.py:94-100, 145-146). The agent
  is an opaque external component. It appears as a function from a message
  list to an `AgentRun`: a list of chunks, optionally followed by an
  exception text.
- Exceptions raised inside the loop body: only exceptions from the stream
  itself, between chunks, are modelled. Message contents are taken to be
  strings, so `full_response += agent_msg.content` cannot fail.
- Chunk keys other than "tools" and "agent" are ignored. A chunk without an
  "agent" entry is modelled as one with an empty message list; both yield
  nothing from that branch.
- Retrieval (app.py:22-38, 115-116): the menu file read, the Markdown
  splitting, the embeddings and the vector search are I/O and foreign
  libraries. The system prompt with the retrieved context (app.py:118-131)
  is an opaque string parameter of `Chat.RespondTurn`. The fact that a
  retrieval failure escapes the `try` is therefore not modelled.
- The agent's checkpointer (`MemorySaver` with the fixed `thread_id`,
  app.py:95-100, 146) makes the real agent's stream depend on earlier turns
  as well as on the message list. The model's agent is a function of the
  message list alone, so `Chat.FalsyRepliesAreAlike` says nothing about an
  agent with memory.
- The history is taken in the chat widget's tuples format, a list of
  (user, reply) pairs, as the comment at app.py:136 states. With the
  message-dictionary format the docstring at app.py:108 mentions, the loop at
  app.py:137 would unpack each dictionary's keys instead; that format is not
  modelled.
- Environment loading (app.py:2-3, 19-20).
- Laziness: the generator is modelled as the finite list of the values it
  yields. Suspension between yields is not modelled.
- Python's `str(e)` for an exception is taken as the given error text.

=== FILE: chat.dfy ===
/** One call of `respond` (app.py:102-176): the history is translated into
    the agent's message list, the external agent turns that list into a
    stream, and the accumulator turns the stream into the values shown to
    the user. The agent is a parameter; the system prompt text, which embeds
    the retrieved menu excerpts, is given as a string. */
module Chat {
  import opened Optional
  import opened History
  import opened Streaming

  /** The values one turn yields, given the agent as a function from its
      message list to the stream it produces. */
  function RespondTurn(system: string, history: seq<Exchange>, message: string,
                       agent: seq<Message> -> AgentRun): seq<string>
  {
    Respond(agent(TurnMessages(system, history, message)))
  }

  lemma {:induction false} HistoryMessagesNormalized(history: seq<Exchange>)
    ensures HistoryMessages(Normalize(history)) == HistoryMessages(history)
  {
    if history != [] {
      HistoryMessagesNormalized(history[1..]);
      assert Normalize(history)[1..] == Normalize(history[1..]);
      assert Normalize(history)[0] == Exchange(history[0].user, if Truthy(history[0].reply) then history[0].reply else None);
    }
  }

  /** The agent's message list identifies the history up to falsy replies:
      two histories give the same messages exactly when they agree once None
      and empty replies are dropped. */
  lemma MessagesIdentifyNormalizedHistory(system: string, h1: seq<Exchange>, h2: seq<Exchange>,
                                          message: string)
    ensures TurnMessages(system, h1, message) == TurnMessages(system, h2, message) <==>
      Normalize(h1) == Normalize(h2)
  {
    TurnMessagesRoundTrip(system, h1, message);
    TurnMessagesRoundTrip(system, h2, message);
    HistoryMessagesNormalized(h1);
    HistoryMessagesNormalized(h2);
  }

  /** A past reply that is None and one that is empty are treated alike: two
      histories that differ only in such replies give the agent the same
      messages, and so an agent that depends only on its messages yields the
      same values. */
  lemma FalsyRepliesAreAlike(system: string, h1: seq<Exchange>, h2: seq<Exchange>, message: string,
                             agent: seq<Message> -> AgentRun)
    requires Normalize(h1) == Normalize(h2)
    ensures TurnMessages(system, h1, message) == TurnMessages(system, h2, message)
    ensures RespondTurn(system, h1, message, agent) == RespondTurn(system, h2, message, agent)
  {
    HistoryMessagesNormalized(h1);
    HistoryMessagesNormalized(h2);
  }
}

=== FILE: history.dfy ===
/** Translation of the chat widget's history into the agent's message list
    (app.py:133-143): a system message first, then for each past exchange the
    user's message and, when the assistant's reply is truthy, that reply, and
    finally the new user message. */
module History {
  import opened Optional

  datatype Role = System | Human | Ai

  datatype Message = Message(role: Role, content: string)

  /** One past exchange as the widget passes it: the user's text and the
      assistant's reply, which is None when the turn never got one. */
  datatype Exchange = Exchange(user: string, reply: Option<string>)

  /** Python truthiness of the reply: None and "" are both false. */
  predicate Truthy(reply: Option<string>) {
    reply.Some? && reply.value != ""
  }

  /** How many exchanges carry a truthy reply. */
  function KeptReplies(history: seq<Exchange>): nat
  {
    if history == [] then 0
    else (if Truthy(history[0].reply) then 1 else 0) + KeptReplies(history[1..])
  }

  /** The messages one exchange contributes. */
  function ExchangeMessages(e: Exchange): seq<Message>
  {
    if Truthy(e.reply) then [Message(Human, e.user), Message(Ai, e.reply.value)]
    else [Message(Human, e.user)]
  }

  /** How many messages of `ms` are user messages. */
  function Humans(ms: seq<Message>): nat
  {
    if ms == [] then 0
    else (if ms[0].role == Human then 1 else 0) + Humans(ms[1..])
  }

  lemma {:induction false} HumansAppend(a: seq<Message>, b: seq<Message>)
    ensures Humans(a + b) == Humans(a) + Humans(b)
  {
    if a == [] {
      assert a + b == b;
    } else {
      assert (a + b)[1..] == a[1..] + b;
      HumansAppend(a[1..], b);
    }
  }

  /** The messages the loop over the history appends, in order. There is one
      user message per exchange and one assistant message per truthy reply,
      every assistant message directly follows a user message, and the list
      never contains a system message. */
  function HistoryMessages(history: seq<Exchange>): (ms: seq<Message>)
    ensures |ms| == |history| + KeptReplies(history)
    ensures Humans(ms) == |history|
    ensures forall i :: 0 <= i < |ms| && ms[i].role == Ai ==> 0 < i && ms[i - 1].role == Human
    ensures forall i :: 0 <= i < |ms| ==> ms[i].role != System
    ensures |history| > 0 ==> ms[0] == Message(Human, history[0].user)
  {
    if history == [] then []
    else
      var head := ExchangeMessages(history[0]);
      var tail := HistoryMessages(history[1..]);
      HumansAppend(head, tail);
      assert Humans(head) == 1 by {
        if |head| == 2 {
          assert head[1..][1..] == [];
        }
      }
      head + tail
  }

  /** The full message list handed to the agent. It opens with the one system
      message, closes with the new user message, and in between holds two
      messages per exchange with a truthy reply and one per other exchange. */
  function TurnMessages(system: string, history: seq<Exchange>, message: string): (ms: seq<Message>)
    ensures |ms| == 2 + |history| + KeptReplies(history)
    ensures ms[0] == Message(System, system)
    ensures ms[|ms| - 1] == Message(Human, message)
    ensures forall i :: 0 < i < |ms| ==> ms[i].role != System
  {
    [Message(System, system)] + HistoryMessages(history) + [Message(Human, message)]
  }

  /** The history as the agent sees it: a reply that is None or empty is
      indistinguishable from a missing one. */
  function Normalize(history: seq<Exchange>): (r: seq<Exchange>)
    ensures |r| == |history|
    ensures forall i :: 0 <= i < |r| ==>
      r[i].user == history[i].user &&
      (if Truthy(history[i].reply) then r[i].reply == history[i].reply else r[i].reply == None)
  {
    if history == [] then []
    else
      var e := history[0];
      [Exchange(e.user, if Truthy(e.reply) then e.reply else None)] + Normalize(history[1..])
  }

  /** Reads user/assistant messages back into exchanges: each user message
      starts an exchange, and an assistant message right after it is its
      reply. Fails on a list that does not have this shape. */
  function ReadExchanges(ms: seq<Message>): Option<seq<Exchange>>
  {
    if ms == [] then Some([])
    else if ms[0].role != Human then None
    else if |ms| > 1 && ms[1].role == Ai then
      match ReadExchanges(ms[2..])
      case None => None
      case Some(rest) => Some([Exchange(ms[0].content, Some(ms[1].content))] + rest)
    else
      match ReadExchanges(ms[1..])
      case None => None
      case Some(rest) => Some([Exchange(ms[0].content, None)] + rest)
  }

  /** Reads a full message list back into (system text, history, new user
      message): the inverse of TurnMessages up to Normalize. */
  function ReadTurn(ms: seq<Message>): Option<(string, seq<Exchange>, string)>
  {
    if ms == [] || ms[0].role != System then None
    else
      match ReadExchanges(ms[1..])
      case None => None
      case Some(exchanges) =>
        if exchanges == [] || exchanges[|exchanges| - 1].reply.Some? then None
        else Some((ms[0].content, exchanges[..|exchanges| - 1], exchanges[|exchanges| - 1].user))
  }

  lemma {:induction false} ReadHistoryMessages(history: seq<Exchange>, message: string)
    ensures ReadExchanges(HistoryMessages(history) + [Message(Human, message)]) ==
      Some(Normalize(history) + [Exchange(message, None)])
  {
    var tail := [Message(Human, message)];
    if history == [] {
      assert HistoryMessages(history) + tail == tail;
      assert tail[1..] == [];
      var only: seq<Exchange> := [Exchange(message, None)];
      assert only + [] == only;
      assert ReadExchanges(tail) == Some(only);
      assert Normalize(history) + only == only;
    } else {
      var e := history[0];
      var rest := HistoryMessages(history[1..]) + tail;
      ReadHistoryMessages(history[1..], message);
      assert rest[0].role == Human;
      assert HistoryMessages(history) + tail == ExchangeMessages(e) + rest;
      if Truthy(e.reply) {
        var ms := ExchangeMessages(e) + rest;
        assert ms[2..] == rest;
        assert ms[0] == Message(Human, e.user) && ms[1] == Message(Ai, e.reply.value);
        var x := Exchange(e.user, Some(e.reply.value));
        assert ReadExchanges(ms) == Some([x] + (Normalize(history[1..]) + [Exchange(message, None)]));
        assert Normalize(history) == [x] + Normalize(history[1..]);
        assert [x] + (Normalize(history[1..]) + [Exchange(message, None)]) ==
          Normalize(history) + [Exchange(message, None)];
      } else {
        var ms := ExchangeMessages(e) + rest;
        assert ms[1..] == rest;
        var x := Exchange(e.user, None);
        assert ReadExchanges(ms) == Some([x] + (Normalize(history[1..]) + [Exchange(message, None)]));
        assert Normalize(history) == [x] + Normalize(history[1..]);
        assert [x] + (Normalize(history[1..]) + [Exchange(message, None)]) ==
          Normalize(history) + [Exchange(message, None)];
      }
    }
  }

  /** The translation loses nothing but the falsy replies: reading the
      message list back gives the system text, the normalized history and
      the new message. */
  lemma TurnMessagesRoundTrip(system: string, history: seq<Exchange>, message: string)
    ensures ReadTurn(TurnMessages(system, history, message)) ==
      Some((system, Normalize(history), message))
  {
    var ms := TurnMessages(system, history, message);
    ReadHistoryMessages(history, message);
    assert ms[1..] == HistoryMessages(history) + [Message(Human, message)];
    var exchanges := Normalize(history) + [Exchange(message, None)];
    assert exchanges[..|exchanges| - 1] == Normalize(history);
  }
}

=== FILE: optional.dfy ===
/** The Option type used for Python values that may be None, and for decoders
    that may reject their input. */
module Optional {

  datatype Option<+T> = None | Some(value: T)
}

=== FILE: reservation.dfy ===
/** The table-reservation tool `reservar_mesa` (app.py:53-92): given a
    requested "HH:MM" time it checks the restaurant's opening slots and a
    fixed snapshot of occupied (slot, table) pairs, and either rejects the
    request or assigns the lowest-numbered free table. The snapshot is a
    local list rebuilt from literals on every call, so the tool is a pure
    function of the requested time. */
module Reservation {
  import opened Text

  /** The seven slots the restaurant takes reservations for, in the order the
      rejection message lists them. */
  const OpenHours: seq<string> :=
    ["13:00", "14:00", "15:00", "20:00", "21:00", "22:00", "23:00"]

  /** Occupied (slot, table) pairs; "13:00" is fully booked. */
  const Occupied: seq<(string, int)> :=
    [("13:00", 1), ("13:00", 2), ("13:00", 3), ("13:00", 4), ("13:00", 5),
     ("13:00", 6), ("14:00", 2), ("14:00", 4), ("15:00", 6), ("20:00", 1),
     ("20:00", 2), ("20:00", 3), ("21:00", 4), ("21:00", 5), ("22:00", 1),
     ("22:00", 6)]

  /** Tables are numbered 1 to TotalTables. */
  const TotalTables: nat := 6

  datatype Outcome =
    | InvalidSlot(open: seq<string>)
    | NoCapacity(hora: string, total: nat)
    | Assigned(hora: string, table: int, remaining: nat)

  /** Table `t` is not occupied at `hora`: the source's
      `(hora, mesa_num) not in mesas_ocupadas`. */
  predicate IsFree(hora: string, occupied: seq<(string, int)>, t: int) {
    (hora, t) !in occupied
  }

  /** The tables numbered 1..total that are not occupied at `hora`. */
  function FreeSet(hora: string, occupied: seq<(string, int)>, total: nat): set<int>
  {
    set t | 1 <= t <= total && IsFree(hora, occupied, t)
  }

  /** The list `mesas_disponibles` that the loop over `range(1, n + 1)`
      builds: each table from 1 to n that is free, appended in order. */
  function FreeTables(hora: string, occupied: seq<(string, int)>, n: nat): seq<int>
  {
    if n == 0 then []
    else if !IsFree(hora, occupied, n) then FreeTables(hora, occupied, n - 1)
    else FreeTables(hora, occupied, n - 1) + [n]
  }

  /** The list holds exactly the free tables. */
  lemma {:induction false} FreeTablesMembers(hora: string, occupied: seq<(string, int)>, n: nat)
    ensures forall t :: t in FreeTables(hora, occupied, n) <==> t in FreeSet(hora, occupied, n)
  {
    if n > 0 {
      FreeTablesMembers(hora, occupied, n - 1);
    }
  }

  /** The list is in increasing table order, so its head is the lowest free
      table. */
  lemma {:induction false} FreeTablesIncreasing(hora: string, occupied: seq<(string, int)>, n: nat)
    ensures forall i, j :: 0 <= i < j < |FreeTables(hora, occupied, n)| ==>
      FreeTables(hora, occupied, n)[i] < FreeTables(hora, occupied, n)[j]
  {
    if n > 0 {
      FreeTablesIncreasing(hora, occupied, n - 1);
      FreeTablesMembers(hora, occupied, n - 1);
      var prev := FreeTables(hora, occupied, n - 1);
      assert forall i :: 0 <= i < |prev| ==> prev[i] in FreeSet(hora, occupied, n - 1);
    }
  }

  /** The list has no repeated entry: its length is the number of free
      tables. */
  lemma {:induction false} FreeTablesCount(hora: string, occupied: seq<(string, int)>, n: nat)
    ensures |FreeTables(hora, occupied, n)| == |FreeSet(hora, occupied, n)|
  {
    if n > 0 {
      FreeTablesCount(hora, occupied, n - 1);
      var before := FreeSet(hora, occupied, n - 1);
      var after := FreeSet(hora, occupied, n);
      if IsFree(hora, occupied, n) {
        assert after == before + {n as int};
        assert n !in before;
      } else {
        assert after == before;
      }
    }
  }

  /** The resolver, over any opening list, occupancy and table count. A time
      that is not open is rejected with the full list of open slots; an open
      time with no free table is rejected as fully booked, naming the table
      count; otherwise the lowest free table is assigned and the number of
      tables still free after it is reported. */
  function Resolve(hora: string, open: seq<string>, occupied: seq<(string, int)>, total: nat): (r: Outcome)
    ensures r.InvalidSlot? <==> hora !in open
    ensures r.InvalidSlot? ==> r.open == open
    ensures r.NoCapacity? <==> hora in open && FreeSet(hora, occupied, total) == {}
    ensures r.NoCapacity? ==> r.hora == hora && r.total == total
    ensures r.Assigned? ==>
      && r.hora == hora
      && r.table in FreeSet(hora, occupied, total)
      && (forall t :: t in FreeSet(hora, occupied, total) ==> r.table <= t)
      && r.remaining == |FreeSet(hora, occupied, total)| - 1
  {
    if hora !in open then InvalidSlot(open)
    else
      var free := FreeTables(hora, occupied, total);
      FreeTablesMembers(hora, occupied, total);
      FreeTablesIncreasing(hora, occupied, total);
      FreeTablesCount(hora, occupied, total);
      if |free| == 0 then NoCapacity(hora, total)
      else Assigned(hora, free[0], |free| - 1)
  }

  // The reply texts. A long text is written as its first or last words plus
  // the rest: the lemmas that tell the replies apart compare characters near
  // those ends, and the verifier reads them from a short literal far more
  // cheaply than from a long one.
  const ClosedPrefix := "Lo lamento" + ", el restaurante solo está abierto en los siguientes horarios: "
  const ClosedSuffix := ". Por favor elige una de estas horas."
  const FullPrefix := "Lo siento" + " mucho, no tenemos mesas disponibles a las "
  const FullMiddle := ". Todas nuestras "
  const FullSuffix := " mesas" + " están ocupadas en ese horario. ¿Te gustaría probar con otra hora?"
  const AssignedPrefix := "¡Perfecto!" + " Te he asignado la mesa "
  const AssignedMiddle := " para las "
  const RemainingPrefix := ". Quedan "
  const RemainingSuffix := " mesas" + " disponibles en ese horario."
  const LastTableSuffix := ". Era" + " la última mesa disponible en ese horario."

  /** The tail of an assignment reply: how many tables are still free. */
  function RemainingTail(remaining: nat): string
  {
    if remaining > 0 then RemainingPrefix + NatToString(remaining) + RemainingSuffix
    else LastTableSuffix
  }

  /** The Spanish reply the tool returns for an outcome. */
  function Render(o: Outcome): string
    requires o.Assigned? ==> o.table >= 0
  {
    match o
    case InvalidSlot(open) =>
      ClosedPrefix + Join(open, ", ") + ClosedSuffix
    case NoCapacity(hora, total) =>
      FullPrefix + (hora + (FullMiddle + (NatToString(total) + FullSuffix)))
    case Assigned(hora, table, remaining) =>
      AssignedPrefix + (NatToString(table) + (AssignedMiddle + (hora + RemainingTail(remaining))))
  }

  /** The outcomes the tool can produce with its own data: rejections carry
      the configured slot list, and every named slot is a five-character string. */
  predicate WellFormed(o: Outcome) {
    match o
    case InvalidSlot(open) => open == OpenHours
    case NoCapacity(hora, _) => |hora| == 5
    case Assigned(hora, table, _) => |hora| == 5 && table >= 0
  }

  lemma ClosedReplyKind(open: seq<string>)
    ensures StartsWith(Render(InvalidSlot(open)), ClosedPrefix)
    ensures !StartsWith(Render(InvalidSlot(open)), FullPrefix)
    ensures !StartsWith(Render(InvalidSlot(open)), AssignedPrefix)
    ensures !EndsWith(Render(InvalidSlot(open)), LastTableSuffix)
  {
    var r := Render(InvalidSlot(open));
    assert StartsWith(r, ClosedPrefix);
    assert EndsWith(r, ClosedSuffix);
    // second-to-last characters: "horas." vs "horario."
    DistinctSuffixes(r, ClosedSuffix, LastTableSuffix, 2);
    // index 3: "Lo lamento" vs "Lo siento"
    DistinctPrefixes(r, ClosedPrefix, FullPrefix, 3);
    // index 0: 'L' vs '¡'
    DistinctPrefixes(r, ClosedPrefix, AssignedPrefix, 0);
  }

  lemma FullReplyEnding(hora: string, total: nat)
    ensures !EndsWith(Render(NoCapacity(hora, total)), LastTableSuffix)
  {
    var r := Render(NoCapacity(hora, total));
    assert r == (FullPrefix + (hora + (FullMiddle + NatToString(total)))) + FullSuffix;
    assert EndsWith(r, FullSuffix);
    // last characters: '?' vs '.'
    DistinctSuffixes(r, FullSuffix, LastTableSuffix, 1);
  }

  lemma FullReplyOpening(hora: string, total: nat)
    ensures StartsWith(Render(NoCapacity(hora, total)), FullPrefix)
  {
    var rest := hora + (FullMiddle + (NatToString(total) + FullSuffix));
    assert Render(NoCapacity(hora, total)) == FullPrefix + rest;
  }

  lemma FullReplyKind(hora: string, total: nat)
    ensures StartsWith(Render(NoCapacity(hora, total)), FullPrefix)
    ensures !StartsWith(Render(NoCapacity(hora, total)), ClosedPrefix)
    ensures !StartsWith(Render(NoCapacity(hora, total)), AssignedPrefix)
    ensures !EndsWith(Render(NoCapacity(hora, total)), LastTableSuffix)
  {
    var r := Render(NoCapacity(hora, total));
    FullReplyEnding(hora, total);
    FullReplyOpening(hora, total);
    FullPrefixExcludes(r);
  }

  /** A text opening with the fully-booked apology opens with neither of the
      other two replies. */
  lemma FullPrefixExcludes(r: string)
    requires StartsWith(r, FullPrefix)
    ensures !StartsWith(r, ClosedPrefix) && !StartsWith(r, AssignedPrefix)
  {
    // index 3: "Lo siento" vs "Lo lamento"
    DistinctPrefixes(r, FullPrefix, ClosedPrefix, 3);
    // index 0: 'L' vs '¡'
    DistinctPrefixes(r, FullPrefix, AssignedPrefix, 0);
  }

  lemma AssignedReplyKind(hora: string, table: nat, remaining: nat)
    ensures StartsWith(Render(Assigned(hora, table, remaining)), AssignedPrefix)
    ensures !StartsWith(Render(Assigned(hora, table, remaining)), ClosedPrefix)
    ensures !StartsWith(Render(Assigned(hora, table, remaining)), FullPrefix)
    ensures remaining == 0 <==> EndsWith(Render(Assigned(hora, table, remaining)), LastTableSuffix)
    ensures remaining > 0 ==>
      EndsWith(Render(Assigned(hora, table, remaining)), RemainingPrefix + NatToString(remaining) + RemainingSuffix)
  {
    var r := Render(Assigned(hora, table, remaining));
    var head := AssignedPrefix + (NatToString(table) + (AssignedMiddle + hora));
    assert r == AssignedPrefix + (NatToString(table) + (AssignedMiddle + (hora + RemainingTail(remaining))));
    AssignedPrefixExcludes(r);
    assert r == head + RemainingTail(remaining);
    assert EndsWith(r, RemainingTail(remaining));
    RemainingTailEnding(r, remaining);
  }

  /** A text opening with the assignment opens with neither apology. */
  lemma AssignedPrefixExcludes(r: string)
    requires StartsWith(r, AssignedPrefix)
    ensures !StartsWith(r, ClosedPrefix) && !StartsWith(r, FullPrefix)
  {
    // index 0: '¡' vs 'L', for both apologies
    DistinctPrefixes(r, AssignedPrefix, ClosedPrefix, 0);
    DistinctPrefixes(r, AssignedPrefix, FullPrefix, 0);
  }

  /** A text ending with the tail for `remaining` ends with the last-table
      sentence exactly when `remaining` is 0, and otherwise with the count. */
  lemma RemainingTailEnding(r: string, remaining: nat)
    requires EndsWith(r, RemainingTail(remaining))
    ensures remaining == 0 <==> EndsWith(r, LastTableSuffix)
    ensures remaining > 0 ==> EndsWith(r, RemainingPrefix + NatToString(remaining) + RemainingSuffix)
  {
    if remaining > 0 {
      var tail := RemainingTail(remaining);
      assert tail == (RemainingPrefix + NatToString(remaining)) + RemainingSuffix;
      // 17th character from the end: "disponibles en ese horario." vs "disponible en ese horario."
      assert tail[|tail| - 17] == RemainingSuffix[|RemainingSuffix| - 17];
      DistinctSuffixes(r, tail, LastTableSuffix, 17);
    }
  }

  /** The three kinds of reply open with different words. A reply ends with
      the last-table sentence exactly when it assigns the last free table;
      an assignment with tables left ends by saying how many. */
  lemma RenderKinds(o: Outcome)
    requires o.Assigned? ==> o.table >= 0
    ensures o.InvalidSlot? <==> StartsWith(Render(o), ClosedPrefix)
    ensures o.NoCapacity? <==> StartsWith(Render(o), FullPrefix)
    ensures o.Assigned? <==> StartsWith(Render(o), AssignedPrefix)
    ensures EndsWith(Render(o), LastTableSuffix) <==> o.Assigned? && o.remaining == 0
    ensures o.Assigned? && o.remaining > 0 ==>
      EndsWith(Render(o), RemainingPrefix + NatToString(o.remaining) + RemainingSuffix)
  {
    match o
    case InvalidSlot(open) => ClosedReplyKind(open);
    case NoCapacity(hora, total) => FullReplyKind(hora, total);
    case Assigned(hora, table, remaining) => AssignedReplyKind(hora, table, remaining);
  }

  /** The third character of a tail tells its two forms apart. */
  lemma RemainingTailMarker(remaining: nat)
    ensures RemainingTail(remaining)[2] == (if remaining > 0 then 'Q' else 'E')
  {
  }

  lemma RemainingTailInjective(r1: nat, r2: nat)
    requires RemainingTail(r1) == RemainingTail(r2)
    ensures r1 == r2
  {
    RemainingTailMarker(r1);
    RemainingTailMarker(r2);
    var t1, t2 := RemainingTail(r1), RemainingTail(r2);
    if r1 > 0 && r2 > 0 {
      assert t1 == RemainingPrefix + (NatToString(r1) + RemainingSuffix);
      assert t2 == RemainingPrefix + (NatToString(r2) + RemainingSuffix);
      CancelPrefix(RemainingPrefix, NatToString(r1) + RemainingSuffix, NatToString(r2) + RemainingSuffix);
      DigitsSplitUnique(NatToString(r1), RemainingSuffix, NatToString(r2), RemainingSuffix);
      NatToStringInjective(r1, r2);
    }
  }

  lemma FullReplyInjective(h1: string, t1: nat, h2: string, t2: nat)
    requires |h1| == 5 && |h2| == 5
    requires Render(NoCapacity(h1, t1)) == Render(NoCapacity(h2, t2))
    ensures h1 == h2 && t1 == t2
  {
    var rest1 := FullMiddle + (NatToString(t1) + FullSuffix);
    var rest2 := FullMiddle + (NatToString(t2) + FullSuffix);
    CancelPrefix(FullPrefix, h1 + rest1, h2 + rest2);
    assert h1 == (h1 + rest1)[..5];
    assert h2 == (h2 + rest2)[..5];
    CancelPrefix(h1, rest1, rest2);
    CancelPrefix(FullMiddle, NatToString(t1) + FullSuffix, NatToString(t2) + FullSuffix);
    DigitsSplitUnique(NatToString(t1), FullSuffix, NatToString(t2), FullSuffix);
    NatToStringInjective(t1, t2);
  }

  lemma AssignedReplyInjective(h1: string, n1: nat, r1: nat, h2: string, n2: nat, r2: nat)
    requires |h1| == 5 && |h2| == 5
    requires Render(Assigned(h1, n1, r1)) == Render(Assigned(h2, n2, r2))
    ensures h1 == h2 && n1 == n2 && r1 == r2
  {
    var rest1 := AssignedMiddle + (h1 + RemainingTail(r1));
    var rest2 := AssignedMiddle + (h2 + RemainingTail(r2));
    CancelPrefix(AssignedPrefix, NatToString(n1) + rest1, NatToString(n2) + rest2);
    DigitsSplitUnique(NatToString(n1), rest1, NatToString(n2), rest2);
    NatToStringInjective(n1, n2);
    CancelPrefix(AssignedMiddle, h1 + RemainingTail(r1), h2 + RemainingTail(r2));
    assert h1 == (h1 + RemainingTail(r1))[..5];
    assert h2 == (h2 + RemainingTail(r2))[..5];
    CancelPrefix(h1, RemainingTail(r1), RemainingTail(r2));
    RemainingTailInjective(r1, r2);
  }

  /** The reply determines the outcome: two well-formed outcomes with the same
      reply are the same outcome. */
  lemma RenderInjective(a: Outcome, b: Outcome)
    requires WellFormed(a) && WellFormed(b)
    requires Render(a) == Render(b)
    ensures a == b
  {
    RenderKinds(a);
    RenderKinds(b);
    match a
    case InvalidSlot(_) =>
    case NoCapacity(h1, t1) => FullReplyInjective(h1, t1, b.hora, b.total);
    case Assigned(h1, n1, r1) => AssignedReplyInjective(h1, n1, r1, b.hora, b.table, b.remaining);
  }

  /** The decision `reservar_mesa(hora)` takes with the restaurant's own
      slots, occupancy and table count. */
  function Decide(hora: string): (r: Outcome)
    ensures WellFormed(r)
    ensures r.Assigned? ==> 1 <= r.table <= TotalTables
  {
    Resolve(hora, OpenHours, Occupied, TotalTables)
  }

  /** The tool `reservar_mesa(hora)`: the reply text for the decision. The
      reply opens with the closed-hours apology exactly when `hora` is not an
      open slot, with the fully-booked apology exactly when every table is
      taken at that slot, and with the assignment otherwise; an assignment
      reply ends with the last-table sentence exactly when no other table is
      free, and otherwise with the number of tables still free. */
  function ReservarMesa(hora: string): (reply: string)
    ensures StartsWith(reply, ClosedPrefix) <==> hora !in OpenHours
    ensures StartsWith(reply, FullPrefix) <==>
      hora in OpenHours && FreeSet(hora, Occupied, TotalTables) == {}
    ensures StartsWith(reply, AssignedPrefix) <==>
      hora in OpenHours && FreeSet(hora, Occupied, TotalTables) != {}
    ensures EndsWith(reply, LastTableSuffix) <==>
      hora in OpenHours && |FreeSet(hora, Occupied, TotalTables)| == 1
    ensures hora in OpenHours && |FreeSet(hora, Occupied, TotalTables)| > 1 ==>
      EndsWith(reply, RemainingPrefix + NatToString(|FreeSet(hora, Occupied, TotalTables)| - 1) + RemainingSuffix)
  {
    var o := Decide(hora);
    RenderKinds(o);
    Render(o)
  }

  /** Two requests get the same reply exactly when they got the same
      decision: the reply names the table, the slot and the count left
      without ambiguity. */
  lemma ReplyDeterminesDecision(h1: string, h2: string)
    ensures ReservarMesa(h1) == ReservarMesa(h2) <==> Decide(h1) == Decide(h2)
  {
    if ReservarMesa(h1) == ReservarMesa(h2) {
      RenderInjective(Decide(h1), Decide(h2));
    }
  }

  /** What a booking kept across calls (the database the comment at
      app.py:86 envisages) would do: the assigned table would leave the free
      set, so the next request for that slot would get a higher table with
      one fewer left, or the fully-booked reply when it was the last one.
      Enabling the disabled append alone would not have this effect: it
      appends to a list that is rebuilt on every call. */
  lemma PersistedBookingConsumesTable(hora: string, open: seq<string>, occupied: seq<(string, int)>, total: nat)
    requires Resolve(hora, open, occupied, total).Assigned?
    ensures var first := Resolve(hora, open, occupied, total);
      var next := Resolve(hora, open, occupied + [(hora, first.table)], total);
      && (first.remaining == 0 ==> next == NoCapacity(hora, total))
      && (first.remaining > 0 ==>
            next.Assigned? && next.table > first.table && next.remaining == first.remaining - 1)
  {
    var first := Resolve(hora, open, occupied, total);
    var booked := occupied + [(hora, first.table)];
    var before := FreeSet(hora, occupied, total);
    var after := FreeSet(hora, booked, total);
    assert after == before - {first.table} by {
      forall t ensures t in after <==> t in before - {first.table} {
        assert (hora, t) in booked <==> (hora, t) in occupied || t == first.table;
      }
    }
    assert |after| == |before| - 1;
  }
}

=== FILE: scenarios.dfy ===
/** The tool's behaviour on the restaurant's own data, slot by slot. */
module ReservationScenarios {
  import opened Text
  import opened Reservation

  lemma OccupancyAt1300()
    ensures !IsFree("13:00", Occupied, 1) && !IsFree("13:00", Occupied, 2) && !IsFree("13:00", Occupied, 3)
    ensures !IsFree("13:00", Occupied, 4) && !IsFree("13:00", Occupied, 5) && !IsFree("13:00", Occupied, 6)
  {
  }

  lemma FreeAt1300()
    ensures FreeTables("13:00", Occupied, TotalTables) == []
  {
    OccupancyAt1300();
    assert FreeTables("13:00", Occupied, 3) == [];
  }

  lemma OccupancyAt1400()
    ensures IsFree("14:00", Occupied, 1) && !IsFree("14:00", Occupied, 2) && IsFree("14:00", Occupied, 3)
    ensures !IsFree("14:00", Occupied, 4) && IsFree("14:00", Occupied, 5) && IsFree("14:00", Occupied, 6)
  {
  }

  lemma FreeAt1400()
    ensures FreeTables("14:00", Occupied, TotalTables) == [1, 3, 5, 6]
  {
    OccupancyAt1400();
    assert FreeTables("14:00", Occupied, 3) == [1, 3];
  }

  lemma OccupancyAt1500()
    ensures IsFree("15:00", Occupied, 1) && IsFree("15:00", Occupied, 2) && IsFree("15:00", Occupied, 3)
    ensures IsFree("15:00", Occupied, 4) && IsFree("15:00", Occupied, 5) && !IsFree("15:00", Occupied, 6)
  {
  }

  lemma FreeAt1500()
    ensures FreeTables("15:00", Occupied, TotalTables) == [1, 2, 3, 4, 5]
  {
    OccupancyAt1500();
    assert FreeTables("15:00", Occupied, 3) == [1, 2, 3];
  }

  lemma OccupancyAt2000()
    ensures !IsFree("20:00", Occupied, 1) && !IsFree("20:00", Occupied, 2) && !IsFree("20:00", Occupied, 3)
    ensures IsFree("20:00", Occupied, 4) && IsFree("20:00", Occupied, 5) && IsFree("20:00", Occupied, 6)
  {
  }

  lemma FreeAt2000()
    ensures FreeTables("20:00", Occupied, TotalTables) == [4, 5, 6]
  {
    OccupancyAt2000();
    assert FreeTables("20:00", Occupied, 3) == [];
  }

  lemma OccupancyAt2100()
    ensures IsFree("21:00", Occupied, 1) && IsFree("21:00", Occupied, 2) && IsFree("21:00", Occupied, 3)
    ensures !IsFree("21:00", Occupied, 4) && !IsFree("21:00", Occupied, 5) && IsFree("21:00", Occupied, 6)
  {
  }

  lemma FreeAt2100()
    ensures FreeTables("21:00", Occupied, TotalTables) == [1, 2, 3, 6]
  {
    OccupancyAt2100();
    assert FreeTables("21:00", Occupied, 3) == [1, 2, 3];
  }

  lemma OccupancyAt2200()
    ensures !IsFree("22:00", Occupied, 1) && IsFree("22:00", Occupied, 2) && IsFree("22:00", Occupied, 3)
    ensures IsFree("22:00", Occupied, 4) && IsFree("22:00", Occupied, 5) && !IsFree("22:00", Occupied, 6)
  {
  }

  lemma FreeAt2200()
    ensures FreeTables("22:00", Occupied, TotalTables) == [2, 3, 4, 5]
  {
    OccupancyAt2200();
    assert FreeTables("22:00", Occupied, 3) == [2, 3];
  }

  lemma OccupancyAt2300()
    ensures IsFree("23:00", Occupied, 1) && IsFree("23:00", Occupied, 2) && IsFree("23:00", Occupied, 3)
    ensures IsFree("23:00", Occupied, 4) && IsFree("23:00", Occupied, 5) && IsFree("23:00", Occupied, 6)
  {
  }

  lemma FreeAt2300()
    ensures FreeTables("23:00", Occupied, TotalTables) == [1, 2, 3, 4, 5, 6]
  {
    OccupancyAt2300();
    assert FreeTables("23:00", Occupied, 3) == [1, 2, 3];
  }

  /** The decision for every open slot: "13:00" is fully booked, every other
      slot gets its lowest free table. */
  lemma OpenSlotDecisions()
    ensures Decide("13:00") == NoCapacity("13:00", 6)
    ensures Decide("14:00") == Assigned("14:00", 1, 3)
    ensures Decide("15:00") == Assigned("15:00", 1, 4)
    ensures Decide("20:00") == Assigned("20:00", 4, 2)
    ensures Decide("21:00") == Assigned("21:00", 1, 3)
    ensures Decide("22:00") == Assigned("22:00", 2, 3)
    ensures Decide("23:00") == Assigned("23:00", 1, 5)
  {
    FreeAt1300();
    FreeAt1400();
    FreeAt1500();
    FreeAt2000();
    FreeAt2100();
    FreeAt2200();
    FreeAt2300();
  }

  /** The open slots, one by one. */
  lemma OpenSlotCases(hora: string)
    requires hora in OpenHours
    ensures hora == "13:00" || hora == "14:00" || hora == "15:00" || hora == "20:00"
         || hora == "21:00" || hora == "22:00" || hora == "23:00"
  {
  }

  /** With this snapshot no open slot is down to its last table, so the
      last-table sentence is never produced. */
  lemma NoSlotIsDownToLastTable(hora: string)
    ensures Decide(hora).Assigned? ==> Decide(hora).remaining > 0
    ensures !EndsWith(ReservarMesa(hora), LastTableSuffix)
  {
    var o := Decide(hora);
    if hora in OpenHours {
      OpenSlotCases(hora);
      OpenSlotDecisions();
    }
    RenderKinds(o);
  }

  /** A request for "21:00" is assigned table 1 with three tables left. */
  lemma Reply2100()
    ensures ReservarMesa("21:00") ==
      AssignedPrefix + ("1" + (AssignedMiddle + ("21:00" + (RemainingPrefix + "3" + RemainingSuffix))))
  {
    var o := Decide("21:00");
    OpenSlotDecisions();
    assert o == Assigned("21:00", 1, 3);
    assert NatToString(1) == "1";
    assert NatToString(3) == "3";
    assert ReservarMesa("21:00") == Render(o);
  }

  /** A request for "13:00" is told that all six tables are taken. */
  lemma Reply1300()
    ensures ReservarMesa("13:00") == FullPrefix + ("13:00" + (FullMiddle + ("6" + FullSuffix)))
  {
    var o := Decide("13:00");
    OpenSlotDecisions();
    assert o == NoCapacity("13:00", 6);
    assert NatToString(6) == "6";
    assert ReservarMesa("13:00") == Render(o);
  }

  /** The closed-hours reply lists the seven slots separated by commas. */
  lemma OpenHoursListing()
    ensures Join(OpenHours, ", ") ==
      "13:00" + ", " + "14:00" + ", " + "15:00" + ", " + "20:00" + ", " + "21:00" + ", " + "22:00" + ", " + "23:00"
  {
    var j6 := Join(OpenHours[6..], ", ");
    assert j6 == "23:00";
    var j5 := Join(OpenHours[5..], ", ");
    assert j5 == "22:00" + ", " + j6 by { assert OpenHours[5..][1..] == OpenHours[6..]; }
    var j4 := Join(OpenHours[4..], ", ");
    assert j4 == "21:00" + ", " + j5 by { assert OpenHours[4..][1..] == OpenHours[5..]; }
    var j3 := Join(OpenHours[3..], ", ");
    assert j3 == "20:00" + ", " + j4 by { assert OpenHours[3..][1..] == OpenHours[4..]; }
    var j2 := Join(OpenHours[2..], ", ");
    assert j2 == "15:00" + ", " + j3 by { assert OpenHours[2..][1..] == OpenHours[3..]; }
    var j1 := Join(OpenHours[1..], ", ");
    assert j1 == "14:00" + ", " + j2 by { assert OpenHours[1..][1..] == OpenHours[2..]; }
    assert Join(OpenHours, ", ") == "13:00" + ", " + j1;
  }

  /** A request for "17:00" is rejected with the list of opening slots. */
  lemma Reply1700()
    ensures ReservarMesa("17:00") == ClosedPrefix + Join(OpenHours, ", ") + ClosedSuffix
  {
    assert "17:00" !in OpenHours;
  }
}

=== FILE: stream_scenarios.dfy ===
/** The accumulator on small scripted streams. */
module StreamingScenarios {
  import opened Optional
  import opened Streaming

  /** A tool chunk followed by an agent answer: the placeholder, then the
      answer alone. */
  lemma ToolThenAnswer()
    ensures Respond(AgentRun([Chunk(true, []), Chunk(false, ["Mesa 1 asignada."])], None)) ==
      [Loading, "Mesa 1 asignada."]
  {
    var chunks := [Chunk(true, []), Chunk(false, ["Mesa 1 asignada."])];
    assert Flatten(chunks) == [ToolCall, AgentText("Mesa 1 asignada.")] by {
      assert Flatten(chunks[1..]) == [AgentText("Mesa 1 asignada.")] by {
        assert chunks[1..][1..] == [];
      }
    }
    FirstYield(AgentRun(chunks, None));
    ConsecutiveYields(AgentRun(chunks, None), 0);
  }

  /** Two tool chunks in a row show the placeholder twice. */
  lemma RepeatedToolCalls()
    ensures Respond(AgentRun([Chunk(true, []), Chunk(true, [])], None)) ==
      [Loading, Loading + Loading]
  {
    var chunks := [Chunk(true, []), Chunk(true, [])];
    assert Flatten(chunks) == [ToolCall, ToolCall] by {
      assert Flatten(chunks[1..]) == [ToolCall] by {
        assert chunks[1..][1..] == [];
      }
    }
    FirstYield(AgentRun(chunks, None));
    ConsecutiveYields(AgentRun(chunks, None), 0);
  }

  /** A stream that raises after one agent message: that message, then the
      error text alone. */
  lemma AnswerThenFailure()
    ensures Respond(AgentRun([Chunk(false, ["Hola"])], Some("timeout"))) ==
      ["Hola", ErrorPrefix + "timeout"]
  {
    var chunks := [Chunk(false, ["Hola"])];
    assert Flatten(chunks) == [AgentText("Hola")] by {
      assert chunks[1..] == [];
    }
    FirstYield(AgentRun(chunks, Some("timeout")));
  }
}

=== FILE: streaming.dfy ===
/** The response accumulator of `respond` (app.py:148-176). The agent's
    stream is consumed chunk by chunk: a chunk with a "tools" entry appends a
    loading placeholder and marks that a tool ran; each message under an
    "agent" entry first discards the buffer if a tool ran since the last
    message, then appends its content. Every step yields the whole buffer,
    and an exception from the stream yields one error text and ends the
    turn. */
module Streaming {
  import opened Optional
  import opened Text

  /** The placeholder shown while the reservation tool runs. */
  const Loading := "\U{1F37D}\U{FE0F} **Verificando disponibilidad de mesa...**\n\n"

  /** The text the error reply starts with; `str(e)` follows it. */
  const ErrorPrefix := "Lo siento, hubo un error procesando tu solicitud: "

  /** One chunk of the agent's stream: whether it has a "tools" entry, and
      the contents of the messages under its "agent" entry (empty when the
      entry is absent). */
  datatype Chunk = Chunk(tools: bool, agent: seq<string>)

  /** What the stream delivers for one turn: the chunks, and then either
      normal completion or an exception whose text is `str(e)`. */
  datatype AgentRun = AgentRun(chunks: seq<Chunk>, failure: Option<string>)

  /** The events the accumulator reacts to, one per yield. */
  datatype Event = ToolCall | AgentText(text: string)

  /** The loop state: `full_response` and `tool_used`. */
  datatype Acc = Acc(response: string, toolUsed: bool)

  const Start := Acc("", false)

  /** One event applied to the state. */
  function Step(st: Acc, e: Event): Acc
  {
    match e
    case ToolCall => Acc(st.response + Loading, true)
    case AgentText(t) => Acc((if st.toolUsed then "" else st.response) + t, false)
  }

  /** The events of `evs` applied in order. */
  function RunFrom(st: Acc, evs: seq<Event>): Acc
    decreases |evs|
  {
    if evs == [] then st else RunFrom(Step(st, evs[0]), evs[1..])
  }

  /** The buffer after each event of `evs`. */
  function YieldsFrom(st: Acc, evs: seq<Event>): seq<string>
    decreases |evs|
  {
    if evs == [] then []
    else [Step(st, evs[0]).response] + YieldsFrom(Step(st, evs[0]), evs[1..])
  }

  /** One text event per agent message, in order. */
  function TextEvents(msgs: seq<string>): (evs: seq<Event>)
    ensures |evs| == |msgs|
  {
    if msgs == [] then [] else [AgentText(msgs[0])] + TextEvents(msgs[1..])
  }

  /** The events one chunk contributes: the tool call first, then the agent's
      messages in order. */
  function ChunkEvents(c: Chunk): seq<Event>
  {
    (if c.tools then [ToolCall] else []) + TextEvents(c.agent)
  }

  function Flatten(chunks: seq<Chunk>): seq<Event>
  {
    if chunks == [] then [] else ChunkEvents(chunks[0]) + Flatten(chunks[1..])
  }

  /** The inner loop over one chunk's agent messages: state and yields. */
  function AgentMessages(st: Acc, msgs: seq<string>): (Acc, seq<string>)
    decreases |msgs|
  {
    if msgs == [] then (st, [])
    else
      var base := if st.toolUsed then "" else st.response;
      var next := Acc(base + msgs[0], false);
      var (last, ys) := AgentMessages(next, msgs[1..]);
      (last, [next.response] + ys)
  }

  /** One pass of the outer loop body: the "tools" branch, then the "agent"
      branch. */
  function ChunkStep(st: Acc, c: Chunk): (Acc, seq<string>)
  {
    if c.tools then
      var afterTool := Acc(st.response + Loading, true);
      var (last, ys) := AgentMessages(afterTool, c.agent);
      (last, [afterTool.response] + ys)
    else AgentMessages(st, c.agent)
  }

  /** The outer loop over the chunks: final state and every yielded value. */
  function StreamFrom(st: Acc, chunks: seq<Chunk>): (Acc, seq<string>)
    decreases |chunks|
  {
    if chunks == [] then (st, [])
    else
      var (mid, ys) := ChunkStep(st, chunks[0]);
      var (last, zs) := StreamFrom(mid, chunks[1..]);
      (last, ys + zs)
  }

  // ---------------------------------------------------------------------
  // The loop over chunks is the loop over their events.

  lemma {:induction false} RunAppend(st: Acc, a: seq<Event>, b: seq<Event>)
    ensures RunFrom(st, a + b) == RunFrom(RunFrom(st, a), b)
    ensures YieldsFrom(st, a + b) == YieldsFrom(st, a) + YieldsFrom(RunFrom(st, a), b)
    decreases |a|
  {
    if a != [] {
      assert (a + b)[1..] == a[1..] + b;
      RunAppend(Step(st, a[0]), a[1..], b);
    } else {
      assert a + b == b;
    }
  }

  lemma {:induction false} AgentMessagesAreEvents(st: Acc, msgs: seq<string>)
    ensures AgentMessages(st, msgs) == (RunFrom(st, TextEvents(msgs)), YieldsFrom(st, TextEvents(msgs)))
    decreases |msgs|
  {
    if msgs != [] {
      var next := Step(st, AgentText(msgs[0]));
      AgentMessagesAreEvents(next, msgs[1..]);
      assert TextEvents(msgs)[1..] == TextEvents(msgs[1..]);
    }
  }

  lemma ChunkStepIsEvents(st: Acc, c: Chunk)
    ensures ChunkStep(st, c) == (RunFrom(st, ChunkEvents(c)), YieldsFrom(st, ChunkEvents(c)))
  {
    var tools: seq<Event> := if c.tools then [ToolCall] else [];
    var texts := TextEvents(c.agent);
    RunAppend(st, tools, texts);
    AgentMessagesAreEvents(RunFrom(st, tools), c.agent);
    assert ChunkEvents(c) == tools + texts;
    if c.tools {
      assert tools[1..] == [];
      assert RunFrom(st, tools) == Acc(st.response + Loading, true);
      assert YieldsFrom(st, tools) == [st.response + Loading];
    } else {
      assert RunFrom(st, tools) == st;
      assert YieldsFrom(st, tools) == [];
      assert tools + texts == texts;
      assert ChunkEvents(c) == texts;
    }
  }

  /** Consuming the stream chunk by chunk yields exactly what consuming its
      events one at a time yields, and ends in the same state. */
  lemma {:induction false} StreamIsEvents(st: Acc, chunks: seq<Chunk>)
    ensures StreamFrom(st, chunks) == (RunFrom(st, Flatten(chunks)), YieldsFrom(st, Flatten(chunks)))
    decreases |chunks|
  {
    if chunks != [] {
      ChunkStepIsEvents(st, chunks[0]);
      var mid := RunFrom(st, ChunkEvents(chunks[0]));
      StreamIsEvents(mid, chunks[1..]);
      RunAppend(st, ChunkEvents(chunks[0]), Flatten(chunks[1..]));
    }
  }

  // ---------------------------------------------------------------------
  // What the buffer holds, stated without the loop.

  /** How many tool calls end the event list. */
  function TrailingTools(evs: seq<Event>): (k: nat)
    ensures k <= |evs|
  {
    if evs == [] || !evs[|evs| - 1].ToolCall? then 0
    else 1 + TrailingTools(evs[..|evs| - 1])
  }

  /** The agent text after the last tool call (all of it when there is none). */
  function TextSinceLastTool(evs: seq<Event>): string
  {
    if evs == [] then ""
    else match evs[|evs| - 1]
      case ToolCall => ""
      case AgentText(t) => TextSinceLastTool(evs[..|evs| - 1]) + t
  }

  /** The response shown after the events `evs`: the agent's text since its
      last tool call, followed by one placeholder for each tool call that no
      agent message has answered yet. */
  function Shown(evs: seq<Event>): string
  {
    var k := TrailingTools(evs);
    TextSinceLastTool(evs[..|evs| - k]) + Repeat(Loading, k)
  }

  lemma {:induction false} RunSnoc(st: Acc, evs: seq<Event>, e: Event)
    ensures RunFrom(st, evs + [e]) == Step(RunFrom(st, evs), e)
  {
    RunAppend(st, evs, [e]);
    assert [e][1..] == [];
  }

  /** A tool call always appends one more placeholder, also when the
      previous event was a tool call too. */
  lemma ShownAfterTool(evs: seq<Event>)
    ensures Shown(evs + [ToolCall]) == Shown(evs) + Loading
    ensures TrailingTools(evs + [ToolCall]) == TrailingTools(evs) + 1
  {
    var all := evs + [ToolCall];
    var k := TrailingTools(evs);
    assert all[..|all| - 1] == evs;
    assert all[..|all| - (k + 1)] == evs[..|evs| - k];
  }

  /** An agent message right after a tool call replaces the whole buffer
      (placeholders included); otherwise it is appended to it. */
  lemma ShownAfterText(evs: seq<Event>, t: string)
    ensures Shown(evs + [AgentText(t)]) == (if TrailingTools(evs) > 0 then "" else Shown(evs)) + t
    ensures TrailingTools(evs + [AgentText(t)]) == 0
  {
    var all := evs + [AgentText(t)];
    assert all[..|all| - 1] == evs;
    assert all[..|all|] == all;
    assert Repeat(Loading, 0) == "";
    assert TextSinceLastTool(all) == TextSinceLastTool(evs) + t;
    if TrailingTools(evs) > 0 {
      assert evs[|evs| - 1] == ToolCall;
      assert TextSinceLastTool(evs) == "";
    } else {
      assert evs[..|evs|] == evs;
    }
  }

  /** The state after any events: the buffer is what Shown describes, and the
      tool flag is set exactly when the last event was a tool call. */
  lemma {:induction false} RunShows(evs: seq<Event>)
    ensures RunFrom(Start, evs).response == Shown(evs)
    ensures RunFrom(Start, evs).toolUsed <==> TrailingTools(evs) > 0
    decreases |evs|
  {
    if evs == [] {
      assert Repeat(Loading, 0) == "";
    } else {
      var init := evs[..|evs| - 1];
      var e := evs[|evs| - 1];
      assert evs == init + [e];
      RunShows(init);
      RunSnoc(Start, init, e);
      match e
      case ToolCall => ShownAfterTool(init);
      case AgentText(t) => ShownAfterText(init, t);
    }
  }

  /** Each yield of the event loop is the buffer after that event. */
  lemma {:induction false} YieldsArePrefixStates(st: Acc, evs: seq<Event>)
    ensures |YieldsFrom(st, evs)| == |evs|
    ensures forall i :: 0 <= i < |evs| ==> YieldsFrom(st, evs)[i] == RunFrom(st, evs[..i + 1]).response
    decreases |evs|
  {
    if evs != [] {
      var next := Step(st, evs[0]);
      YieldsArePrefixStates(next, evs[1..]);
      forall i | 0 <= i < |evs|
        ensures YieldsFrom(st, evs)[i] == RunFrom(st, evs[..i + 1]).response
      {
        if i > 0 {
          assert evs[..i + 1][1..] == evs[1..][..i];
        } else {
          assert evs[..1][1..] == [];
        }
      }
    }
  }

  /** The values `respond` yields for one agent run: the buffer after every
      event, each the whole response so far (never a delta), and, when the
      stream raised, exactly one more value: the error text alone, with none
      of the buffer in it. */
  function Respond(run: AgentRun): (out: seq<string>)
    ensures var evs := Flatten(run.chunks);
      && |out| == |evs| + (if run.failure.Some? then 1 else 0)
      && (forall i :: 0 <= i < |evs| ==> out[i] == Shown(evs[..i + 1]))
      && (run.failure.Some? ==> out[|out| - 1] == ErrorPrefix + run.failure.value)
  {
    var evs := Flatten(run.chunks);
    StreamIsEvents(Start, run.chunks);
    YieldsArePrefixStates(Start, evs);
    forall i | 0 <= i < |evs| ensures YieldsFrom(Start, evs)[i] == Shown(evs[..i + 1]) {
      RunShows(evs[..i + 1]);
    }
    var shown := StreamFrom(Start, run.chunks).1;
    match run.failure
    case None => shown
    case Some(err) => shown + [ErrorPrefix + err]
  }

  // ---------------------------------------------------------------------
  // Properties of the yielded values.

  /** How consecutive yields relate: a tool call appends one placeholder to
      the previous value (also after another tool call); an agent message
      right after a tool call is the whole new value, with no placeholder
      before it; an agent message after another agent message is appended. */
  lemma ConsecutiveYields(run: AgentRun, i: nat)
    requires i + 1 < |Flatten(run.chunks)|
    ensures var evs := Flatten(run.chunks);
      var out := Respond(run);
      && (evs[i + 1] == ToolCall ==> out[i + 1] == out[i] + Loading)
      && (evs[i + 1].AgentText? && evs[i] == ToolCall ==> out[i + 1] == evs[i + 1].text)
      && (evs[i + 1].AgentText? && evs[i].AgentText? ==> out[i + 1] == out[i] + evs[i + 1].text)
  {
    var evs := Flatten(run.chunks);
    var before := evs[..i + 1];
    assert evs[..i + 2] == before + [evs[i + 1]];
    assert before[|before| - 1] == evs[i];
    match evs[i + 1]
    case ToolCall => ShownAfterTool(before);
    case AgentText(t) =>
      ShownAfterText(before, t);
      if evs[i].AgentText? {
        assert TrailingTools(before) == 0;
      }
  }

  /** The first yield is the placeholder when the stream opens with a tool
      call, and the first agent message otherwise. */
  lemma FirstYield(run: AgentRun)
    requires |Flatten(run.chunks)| > 0
    ensures var e := Flatten(run.chunks)[0];
      Respond(run)[0] == (if e.ToolCall? then Loading else e.text)
  {
    var evs := Flatten(run.chunks);
    assert evs[..1] == [] + [evs[0]];
    assert Shown([]) == "" by {
      assert Repeat(Loading, 0) == "";
    }
    match evs[0]
    case ToolCall => ShownAfterTool([]);
    case AgentText(t) => ShownAfterText([], t);
  }

  /** An exception leaves every value yielded before it as it was and adds
      exactly one value, the error text, which carries none of the buffer. */
  lemma FailureAddsOnlyErrorText(chunks: seq<Chunk>, err: string)
    ensures Respond(AgentRun(chunks, Some(err))) ==
      Respond(AgentRun(chunks, None)) + [ErrorPrefix + err]
  {
  }
}

=== FILE: text.dfy ===
/** String helpers the reply templates need: Python's `str(n)` for a
    non-negative int, `sep.join(parts)`, and repetition, together with the
    facts that make rendered replies unambiguous. */
module Text {

  predicate IsDigit(c: char) {
    '0' <= c <= '9'
  }

  predicate AllDigits(s: string) {
    forall i :: 0 <= i < |s| ==> IsDigit(s[i])
  }

  function DigitChar(d: nat): (c: char)
    requires d < 10
    ensures IsDigit(c)
    ensures c as int - '0' as int == d
  {
    "0123456789"[d]
  }

  /** The number a string of decimal digits denotes. */
  function DigitsValue(s: string): nat
    requires AllDigits(s)
  {
    if s == [] then 0
    else 10 * DigitsValue(s[..|s| - 1]) + (s[|s| - 1] as int - '0' as int)
  }

  /** Python's `str(n)` for `n >= 0`: the shortest decimal numeral of `n`. */
  function NatToString(n: nat): (s: string)
    ensures |s| > 0 && AllDigits(s)
    ensures DigitsValue(s) == n
    ensures |s| > 1 ==> s[0] != '0'
  {
    if n < 10 then [DigitChar(n)]
    else
      var prefix := NatToString(n / 10);
      var s := prefix + [DigitChar(n % 10)];
      assert s[..|s| - 1] == prefix;
      s
  }

  /** Distinct numbers have distinct numerals. */
  lemma NatToStringInjective(m: nat, n: nat)
    ensures NatToString(m) == NatToString(n) <==> m == n
  {
  }

  /** Python's `sep.join(parts)`. */
  function Join(parts: seq<string>, sep: string): string
  {
    if |parts| == 0 then ""
    else if |parts| == 1 then parts[0]
    else parts[0] + sep + Join(parts[1..], sep)
  }

  /** `s` written `n` times in a row (Python's `s * n`). */
  function Repeat(s: string, n: nat): (r: string)
    ensures |r| == n * |s|
  {
    if n == 0 then "" else Repeat(s, n - 1) + s
  }

  predicate StartsWith(s: string, prefix: string) {
    |prefix| <= |s| && s[..|prefix|] == prefix
  }

  predicate EndsWith(s: string, suffix: string) {
    |suffix| <= |s| && s[|s| - |suffix|..] == suffix
  }

  /** A numeral followed by a non-digit can be split off in one way only:
      if `a + s == b + t` where `a`, `b` are digit strings and `s`, `t` both
      start with a non-digit, then `a == b` and `s == t`. */
  lemma DigitsSplitUnique(a: string, s: string, b: string, t: string)
    requires AllDigits(a) && AllDigits(b)
    requires |s| > 0 && !IsDigit(s[0])
    requires |t| > 0 && !IsDigit(t[0])
    requires a + s == b + t
    ensures a == b && s == t
  {
    assert a == (a + s)[..|a|];
    assert b == (b + t)[..|b|];
    assert s == (a + s)[|a|..];
    assert t == (b + t)[|b|..];
  }

  /** A common prefix can be cancelled. */
  lemma CancelPrefix(p: string, x: string, y: string)
    requires p + x == p + y
    ensures x == y
  {
    assert x == (p + x)[|p|..];
    assert y == (p + y)[|p|..];
  }

  /** Two prefixes that differ at some position cannot both open `s`. */
  lemma DistinctPrefixes(s: string, p: string, q: string, k: nat)
    requires k < |p| && k < |q| && p[k] != q[k]
    requires StartsWith(s, p)
    ensures !StartsWith(s, q)
  {
    assert s[k] == s[..|p|][k];
  }

  /** Two suffixes that differ at some distance from the end cannot both
      close `s`. */
  lemma DistinctSuffixes(s: string, p: string, q: string, k: nat)
    requires 0 < k <= |p| && k <= |q| && p[|p| - k] != q[|q| - k]
    requires EndsWith(s, p)
    ensures !EndsWith(s, q)
  {
    assert s[|s| - k] == s[|s| - |p|..][|p| - k];
  }
}
